=== FILE: README.md ===
# influxable core, modelled in Dafny

This project models the small, pure pieces of the `influxable` Python
library, a typed access layer over InfluxDB's HTTP query API:

- **Field attribute base** (`Attributes`): the timestamp precision codes
  `h`, `u`, `ms`, `m`, `ns`, `s`. The table of ratios relative to seconds,
  as exact `real` rationals. The constructor defaults of the base attribute,
  and the null/default rule of its `clean`.
- **WHERE operators** (`Criteria`): the closed operator enumeration, its
  values and the table of rendered symbols. Both are read back by inverse
  functions, so totality and injectivity are proved.
- **Function calls** (`Functions`, `Selectors`): `NAME(subject)` with a
  default `*` subject. A nested function's rendering is substituted for the
  subject. `FIRST`, `LAST`, `MAX` and `MIN` are instances of it. Renderings
  are read back by a parser, which proves that rendering is injective when
  no identifier or plain subject holds a `(`. A lemma also shows that
  without that restriction it is not injective.
- **Response navigation** (`Json`, `Response`): a decoded JSON document is
  a datatype. Python's `in`, `[]`, `len`, `[0]`, iteration and `.get` are
  modelled on it, each with the exception Python raises where it raises.
  On top of these sit the views `series`, `main_serie`, `columns`, `name`,
  `values` and `error`.
- **Administrative command texts** (`Admin`): privilege normalisation and
  validation. The quoted, comma-joined `FROM` clause, with a parser proving
  the measurement list can be read back. The `AND`-joined `WHERE` clause.
  The `EXACT` slot of the cardinality commands. The serializer each command's
  response is handed to.

Everything is a pure function over immutable datatypes. `evaluate`, the
response properties and the clause builders are pure in the source too, so
repeated calls return the same text by construction. The `raw` property of
each response view is the datatype's `raw` field: it gives back the
constructor's input unchanged.

Python's `None` is `Option.None`. An exception the source raises is a
`Result.Failure` naming it: `InvalidChoiceError` for a bad privilege,
`KeyError`/`TypeError`/`IndexError`/`AttributeError` for a response of
unexpected shape. Upper-casing is ASCII-only.

A JSON object is kept as its members in document order, repeated keys
included. The operations read it as the dictionary Python decodes it into:
a repeated key is bound to its last value, and it is counted and visited
once, at the position of its first binding.

Files: `wrappers.dfy` (Option, Result), `text.dfy` (join, ASCII upper-case,
quoting, search), `attributes.dfy`, `criteria.dfy`, `functions.dfy`,
`selectors.dfy`, `json.dfy`, `response.dfy`, `admin.dfy`.

## Model

| member | source | states |
|---|---|---|
| Attributes.PrecisionOfCode | influxable/attributes.py:4-10 | a code reads back to the unit with that code, and only the six codes `h`, `u`, `ms`, `m`, `ns`, `s` are units |
| Attributes.CodeRoundTrip | influxable/attributes.py:4-10 | every unit's code reads back as that unit |
| Attributes.CodesDistinct | influxable/attributes.py:4-10 | two units have the same code exactly when they are the same unit |
| Attributes.Inv | influxable/attributes.py:14-17 | the reciprocal used for hours and minutes: its product with its argument is 1 |
| Attributes.RatioTableDomain | influxable/attributes.py:13-20 | the ratio table is defined on exactly the six precision codes, so on every unit |
| Attributes.RatioValues | influxable/attributes.py:13-20 | s = 1, ms = 1000, u = 10^6, ns = 10^9, h = 1/3600, m = 1/60; each sub-second unit is 1000 times the next coarser one, and m = 60·h |
| Attributes.KeywordGet | influxable/attributes.py:27-30 | `kwargs.get(name, default)`: the default when the keyword is not passed, the passed value otherwise |
| Attributes.NewAttribute | influxable/attributes.py:24-30 | a fresh attribute has no value and no raw value; name and default are the keyword arguments; each of `enforce_cast` and `is_nullable` is `True` when not passed and otherwise exactly what was passed, `None` included |
| Attributes.FreshAttributeDefaults | influxable/attributes.py:24-30 | without keyword arguments: no value, no raw value, no name, no default, enforce_cast and is_nullable `True` |
| Attributes.ExplicitNoneFlagsKept | influxable/attributes.py:29-30 | passing a flag as `None` stores `None`, unlike leaving it out; passing `False` stores `False` |
| Attributes.Clean | influxable/attributes.py:32-36 | cleaning `None` sets the value to the default when there is one and to `None` otherwise; a present input leaves the value unchanged; raw value, name, default, enforce_cast and is_nullable never change |
| Attributes.CleanIdempotent | influxable/attributes.py:32-36 | cleaning twice with the same input is the same as cleaning once |
| Attributes.CleanNoneIsDefault | influxable/attributes.py:32-36 | after cleaning `None` the value is the default, whatever the earlier value was |
| Attributes.CleanFreshAttribute | influxable/attributes.py:24-36 | a fresh attribute cleaned with `None` holds the default, and keeps the name and flags the constructor stored |
| Criteria.OperatorOfValue | influxable/db/criteria.py:4-10 | an enumeration value reads back to the operator with that value; only `lt`, `lte`, `gt`, `gte`, `eq`, `ne` are values |
| Criteria.ValuesDistinct | influxable/db/criteria.py:5-10 | the six enumeration values are pairwise distinct |
| Criteria.EvaluatedOperatorsTable | influxable/db/criteria.py:13-20 | the symbol table covers every operator: LT `<`, LTE `<=`, GT `>`, GTE `>=`, EQ `=`, NE `!=` |
| Criteria.OperatorOfSymbol | influxable/db/criteria.py:13-20 | a symbol reads back to an operator that the table maps to it; a text that no operator renders as reads back to nothing |
| Criteria.EvaluatedOperatorsInjective | influxable/db/criteria.py:13-20 | two operators render as the same symbol exactly when they are the same operator |
| Functions.MakeFunction | influxable/db/function/__init__.py:1-4 | an instance keeps the generated identifier and the given subject, `*` by default |
| Functions.Evaluate | influxable/db/function/__init__.py:6-11 | every rendering starts with the identifier followed by `(` and ends with `)` |
| Functions.EvaluateSubject | influxable/db/function/__init__.py:7-10 | a field name is placed as its text; a nested function as a rendering that starts with its identifier and `(` and ends with `)` |
| Functions.EvaluateDefault | influxable/db/function/__init__.py:3-11 | with no subject given, the rendering is `ID(*)` |
| Functions.EvaluateComposes | influxable/db/function/__init__.py:6-11 | a plain subject `s` renders as `ID(s)`; a nested function's own rendering is substituted for the subject |
| Functions.ParenthesesPerLevel | influxable/db/function/__init__.py:11 | each nesting level adds exactly one `(` and one `)`: with parenthesis-free identifiers and subject, a rendering holds as many of each as there are levels |
| Functions.ParseEvaluate | influxable/db/function/__init__.py:6-11 | when no identifier or plain subject holds a `(`, reading the rendering back gives the rendered function |
| Functions.EvaluateInjective | influxable/db/function/__init__.py:6-11 | under that condition, two functions with the same rendering are equal |
| Functions.PlainLooksLikeNested | influxable/db/function/__init__.py:7-10 | without it they need not be: `MAX` of the plain text `FIRST(v)` renders like `MAX` of the function `FIRST(v)` |
| Selectors.First | influxable/db/function/selectors.py:4 | `First` has identifier `FIRST` and the given subject, `*` by default |
| Selectors.Last | influxable/db/function/selectors.py:5 | `Last` has identifier `LAST` and the given subject, `*` by default |
| Selectors.Max | influxable/db/function/selectors.py:6 | `Max` has identifier `MAX` and the given subject, `*` by default |
| Selectors.Min | influxable/db/function/selectors.py:7 | `Min` has identifier `MIN` and the given subject, `*` by default |
| Selectors.SelectorRenderings | influxable/db/function/selectors.py:4-7 | `First()` renders `FIRST(*)`; with field `f`: `FIRST(f)`, `LAST(f)`, `MAX(f)`, `MIN(f)` |
| Selectors.SelectorsDistinct | influxable/db/function/selectors.py:4-7 | the four selectors render any one subject in four pairwise-different ways |
| Selectors.SelectorsNest | influxable/db/function/selectors.py:4-7 | `Max(First("v"))` renders `MAX(FIRST(v))` |
| Json.Lookup | influxable/response.py:19 | a key is found exactly when it is bound, and then at a binding with no later binding of the same key |
| Json.KeyIndex | influxable/response.py:20-23 | the position of a key's first binding: before the end exactly when the key is bound, and no earlier member binds it |
| Json.Keys | influxable/response.py:20-23 | the dictionary's keys: exactly the bound keys, each once, in the order of their first bindings |
| Json.Contains | influxable/response.py:18 | `key in v`: on an object, true exactly when the key is bound; on a list, when the string is an item; on a string, when it is a substring; `TypeError` on anything else |
| Json.GetItem | influxable/response.py:19 | `v[key]`: succeeds exactly on an object binding the key, with the bound value; `KeyError` on an object without it, `TypeError` otherwise |
| Json.Len | influxable/response.py:20 | `len(v)`: the number of distinct keys of an object, of items of a list, of characters of a string; `TypeError` otherwise |
| Json.Head | influxable/response.py:21 | `v[0]`: the first item or character, `IndexError` when empty, `KeyError(0)` with an integer key on an object, `TypeError` otherwise |
| Json.Iterate | influxable/response.py:23 | iteration: a list's items, a string's characters, an object's distinct keys in first-binding order; `TypeError` otherwise |
| Json.Get | influxable/response.py:41 | `.get(key, default)`: the bound value or the default on an object; `AttributeError` on anything else |
| Response.RepeatedKeyLastWins | influxable/response.py:18-23 | a document whose `results` key is repeated counts it once and takes the series from its last value |
| Response.Wrap | influxable/response.py:23 | one series view per element, in the same order, each over that element |
| Response.Series | influxable/response.py:16-24 | a document object without `results` has no series; a non-empty series list implies the document is an object with `results` |
| Response.SeriesOfResult | influxable/response.py:22-24 | a result without `series` gives the empty list; a `series` list gives one view per entry, in order |
| Response.SeriesWithoutResults | influxable/response.py:18-24 | no `results` member: the series list is empty |
| Response.SeriesOfEmptyResults | influxable/response.py:19-24 | an empty `results` list: the series list is empty |
| Response.SeriesWithoutSeriesKey | influxable/response.py:20-24 | a first result without a `series` member: the series list is empty |
| Response.SeriesOfFirstResult | influxable/response.py:18-24 | with at least one result, the series list is exactly what the first result gives |
| Response.SeriesOfWellFormed | influxable/response.py:18-23 | in the documented shape the series views are the first result's `series` entries, same number and same order |
| Response.SeriesReadsOnlyFirstResult | influxable/response.py:20-23 | results after the first do not change the series list |
| Response.MainSerie | influxable/response.py:9-14 | the main series is `None` exactly when the series list is empty, otherwise its first element; errors of the series list propagate |
| Response.Columns | influxable/response.py:35-37 | the raw `columns` entry; `KeyError` when it is missing |
| Response.Values | influxable/response.py:43-45 | the raw `values` entry; a series without one is a `KeyError`, not an empty list |
| Response.Name | influxable/response.py:39-41 | the `name` entry if present, else `"default"`; a non-object series has no `.get` and fails with `AttributeError` |
| Response.Error | influxable/response.py:56-58 | the raw `error` entry; `KeyError` when it is missing |
| Text.Join | influxable/db/admin.py:122 | `sep.join`: empty for no parts, otherwise starts with the first part |
| Text.JoinLength | influxable/db/admin.py:122 | the joined length is the parts' lengths plus one separator between each two |
| Text.JoinAppend | influxable/db/admin.py:151 | joining one more part appends the separator and that part |
| Text.Quote | influxable/db/admin.py:121 | `'"{}"'.format(m)` (also lines 205, 219 and the `"{key}"` slots at 102 and 229): two characters longer, a double quote at each end, and the text itself between them |
| Text.IsSubstring | influxable/response.py:18 | Python's `p in s` on strings: holds for a prefix, and only for a piece no longer than the text |
| Text.SubstringOfConcat | influxable/response.py:18 | a text occurs in any concatenation that places it between two others |
| Text.Upper | influxable/db/admin.py:47 | `str.upper` on ASCII: same length, no lower-case letter left, each lower-case letter replaced by its capital and every other character kept |
| Text.UpperIdempotent | influxable/db/admin.py:47 | upper-casing an upper-cased text changes nothing |
| Admin.ListRepr | influxable/db/admin.py:49-52 | Python's `str` of a list whose items hold no quote, backslash or non-printable character, such as the privilege list: bracketed, `[]` when empty, otherwise starting with the first item in single quotes |
| Admin.PrivilegeMessage | influxable/db/admin.py:49-52 | the message names the privilege in backquotes and ends with the printed list of choices |
| Admin.PrivilegeListRepr | influxable/db/admin.py:49-52 | the choices print as `['ALL', 'READ', 'WRITE']` |
| Admin.PrivilegeMessageText | influxable/db/admin.py:49-52 | the full message text for a refused privilege |
| Admin.FormattedPrivilege | influxable/db/admin.py:45-54 | succeeds exactly when the upper-cased input is `ALL`, `READ` or `WRITE`, returning it; otherwise `InvalidChoiceError` with the message naming the upper-cased input and the list of choices |
| Admin.FormattedPrivilegeIdempotent | influxable/db/admin.py:46-54 | a formatted privilege formats to itself |
| Admin.FormattedPrivilegeExamples | influxable/db/admin.py:46-54 | `read`, `Write`, `all` are accepted as `READ`, `WRITE`, `ALL`; `admin` is refused |
| Admin.QuoteAll | influxable/db/admin.py:121 | one entry per measurement, in order, each wrapped in double quotes |
| Admin.FromClause | influxable/db/admin.py:121-126 | empty exactly when no measurement is named; otherwise, for any names, exactly `FROM ` and the double-quoted names joined by `, `, starting with the first measurement in double quotes |
| Admin.FromClauseRoundTrip | influxable/db/admin.py:121-126 | for names without a double quote, the measurement list reads back from the clause: `FROM ` and the quoted names joined by `, ` |
| Admin.FromClauseInjective | influxable/db/admin.py:121-126 | different lists of quote-free names give different FROM clauses |
| Admin.FromClauseQuoteCollision | influxable/db/admin.py:121-126 | the no-quote condition is needed: the one name `a", "b` and the two names `a`, `b` give the same FROM clause |
| Admin.ShowFieldKeys | influxable/db/admin.py:119-131 | `SHOW FIELD KEYS ` then exactly the FROM clause, for any names; for names without a double quote the measurements read back from the text; the trailing space stays with no measurements; formatted-series serializer |
| Admin.ShowTagKeys | influxable/db/admin.py:203-215 | `SHOW TAG KEYS ` then exactly the FROM clause, for any names; for names without a double quote the measurements read back from the text; formatted-series serializer |
| Admin.ShowTagValues | influxable/db/admin.py:217-232 | `SHOW TAG VALUES `, exactly the FROM clause for any names (the measurements read back for names without a double quote), then ` WITH KEY = ` and the double-quoted key; two spaces with no measurements |
| Admin.WhereClause | influxable/db/admin.py:150-155 | empty exactly when there are no criteria or a single empty one; otherwise `WHERE ` and the criteria joined by ` AND ` |
| Admin.WhereClauseAppend | influxable/db/admin.py:150-155 | each further criterion appends ` AND ` and its rendering |
| Admin.ShowMeasurements | influxable/db/admin.py:147-159 | `SHOW MEASUREMENTS ` alone (trailing space kept) for no criteria or a single empty one; otherwise `SHOW MEASUREMENTS WHERE ` and the criteria joined by ` AND `; flat simple-result serializer |
| Admin.ExactSlot | influxable/db/admin.py:65-68 | the slot is `EXACT` when exact and empty otherwise |
| Admin.MeasurementCardinality | influxable/db/admin.py:64-72 | contains `EXACT` exactly when exact; flat single-value serializer |
| Admin.MeasurementCardinalityText | influxable/db/admin.py:64-70 | the full text with and without `EXACT`; without it the two spaces around the slot remain |
| Admin.SeriesCardinality | influxable/db/admin.py:74-84 | contains `EXACT` exactly when exact; formatted-series serializer exactly when exact, flat single-value serializer exactly when not |
| Admin.SeriesCardinalityText | influxable/db/admin.py:74-80 | the full text with and without `EXACT`; without it the two spaces remain |
| Admin.TagKeyCardinality | influxable/db/admin.py:86-94 | contains `EXACT` exactly when exact; formatted-series serializer |
| Admin.TagKeyCardinalityText | influxable/db/admin.py:86-92 | the full text with and without `EXACT`; without it the two spaces remain |
| Admin.TagValuesExactSlot | influxable/db/admin.py:96-103 | the tag-values cardinality text contains `EXACT` when exact, and for a key without the letter `X` only then |
| Admin.TagValuesCardinality | influxable/db/admin.py:96-105 | the slot as above, then ` CARDINALITY WITH KEY = ` and the double-quoted key; formatted-series serializer |

## Left out

- Network and execution: `_execute_query`, `_execute_query_with_parser`, `RawQuery` and the transport are I/O and are not modelled. The admin commands are modelled up to their query text and the serializer they name.
- Admin dispatch: the `show_*` methods pass the serializer positionally into the `options` parameter of `_execute_query`. The model records which serializer each command names, not that call.
- Database-name injection (`_get_database_name`, `_format_with_double_quote`) and `ShowAdminCommand` are not part of this model.
- The fixed-template SHOW commands with no parameters (`SHOW DATABASES`, `SHOW USERS`, ...) carry no logic beyond a constant text, so they are not modelled.
- `show_grants` (influxable/db/admin.py:134-139) inserts the user name, unquoted, into a one-slot template; it is not part of this model.
- `show_field_key_cardinality` (influxable/db/admin.py:56-62) is not part of this model.
- Attributes.Inv: the helper `inv` it stands for is not part of this model; it is taken to be the reciprocal.
- Attributes.Clean: only the two `None` branches of `clean` (influxable/attributes.py:32-36) are modelled; a value that is not `None` leaves the stored value as it was. Per-kind coercion and validation are not part of this model.
- The `Field` criterion class, the `Query` builder, line-protocol rendering, the parameterised selectors (`Bottom`, `Percentile`, `Sample`, `Top`) and the measurement metaclass are not part of this model.
- Serializers: `JsonSerializer` is a `json.dumps` library call and `DefaultSerializer` is the identity. Serializers appear only as names.
- Text.Upper: Python's `str.upper` is full Unicode (`ß` becomes `SS`); the model upper-cases ASCII letters only.
- Admin.FormattedPrivilege: the argument is taken to be a string; `str()` of other objects is not modelled. Upper-casing is ASCII-only, so spellings that Python's `str.upper` maps onto ASCII capitals, such as `wrıte` with a dotless `ı` (U+0131) or `ſ` (U+017F) for `S`, are refused by the model although the source accepts them as `WRITE` and so on.
- Admin.TagValuesExactSlot: the "contains `EXACT` only when exact" direction is stated only for keys without the letter `X`, since a key may itself contain `EXACT`.
- Json: numbers are kept as `real`. Python's distinction between `int` and `float` is not modelled, because the views never inspect numbers.

=== FILE: admin.dfy ===
/** The pure parts of the administrative commands: privilege normalisation,
    the clause texts of the SHOW commands, and which serializer each
    command's response is handed to. */
module Admin {
  import opened Wrappers
  import opened Text

  const All: string := "ALL"
  const Read: string := "READ"
  const Write: string := "WRITE"

  /** The accepted privileges, in the order the error message lists them. */
  const PrivilegeValues: seq<string> := [All, Read, Write]

  datatype AdminError = InvalidChoiceError(message: string)

  /** Python's `str` of a list of strings, `['a', 'b']`, for items without a
      quote, a backslash or a non-printable character, such as the privilege
      list; Python quotes and escapes other items differently. */
  function ListRepr(xs: seq<string>): (r: string)
    ensures |r| >= 2 && r[0] == '[' && r[|r| - 1] == ']'
    ensures |xs| == 0 ==> r == "[]"
    ensures |xs| > 0 ==> "['" + xs[0] + "'" <= r
  {
    var items := seq(|xs|, i requires 0 <= i < |xs| => "'" + xs[i] + "'");
    var joined := Join(", ", items);
    assert |xs| > 0 ==> "[" + items[0] <= "[" + joined + "]";
    "[" + joined + "]"
  }

  /** The text of the error raised for a privilege that is not accepted. */
  function PrivilegeMessage(privilege: string): (r: string)
    ensures var head := "privilege `" + privilege + "` must be one of value of ";
            && |r| == |head| + |ListRepr(PrivilegeValues)|
            && r[..|head|] == head && r[|head|..] == ListRepr(PrivilegeValues)
  {
    var head := "privilege `" + privilege + "` must be one of value of ";
    ConcatSlices(head, ListRepr(PrivilegeValues), "");
    head + ListRepr(PrivilegeValues)
  }

  /** Each accepted privilege between single quotes. */
  lemma QuotedPrivileges()
    ensures seq(|PrivilegeValues|, i requires 0 <= i < |PrivilegeValues| => "'" + PrivilegeValues[i] + "'")
            == ["'ALL'", "'READ'", "'WRITE'"]
  {
    var quoted := seq(|PrivilegeValues|, i requires 0 <= i < |PrivilegeValues| => "'" + PrivilegeValues[i] + "'");
    assert quoted[0] == "'ALL'";
    assert quoted[1] == "'READ'";
    assert quoted[2] == "'WRITE'";
  }

  /** The accepted privileges as Python prints the list. */
  lemma PrivilegeListRepr()
    ensures ListRepr(PrivilegeValues) == "['ALL', 'READ', 'WRITE']"
  {
    QuotedPrivileges();
    JoinOfThree(", ", "'ALL'", "'READ'", "'WRITE'");
  }

  /** The full error text for a refused privilege. */
  lemma PrivilegeMessageText(privilege: string)
    ensures PrivilegeMessage(privilege) ==
              "privilege `" + privilege + "` must be one of value of ['ALL', 'READ', 'WRITE']"
  {
    PrivilegeListRepr();
    Regroup("privilege `" + privilege, "` must be one of value of ", "['ALL', 'READ', 'WRITE']");
  }

  /** Upper-cases the privilege and accepts it only when it is one of the
      three privileges. */
  function FormattedPrivilege(privilege: string): (r: Result<string, AdminError>)
    ensures r.Success? <==> Upper(privilege) in PrivilegeValues
    ensures r.Success? ==> r.value == Upper(privilege)
    ensures r.Failure? ==> r.error == InvalidChoiceError(PrivilegeMessage(Upper(privilege)))
  {
    var upper := Upper(privilege);
    if upper !in PrivilegeValues then Failure(InvalidChoiceError(PrivilegeMessage(upper)))
    else Success(upper)
  }

  /** A formatted privilege formats to itself. */
  lemma FormattedPrivilegeIdempotent(privilege: string)
    requires FormattedPrivilege(privilege).Success?
    ensures FormattedPrivilege(FormattedPrivilege(privilege).value) == FormattedPrivilege(privilege)
  {
    UpperIdempotent(privilege);
  }

  /** Lower- and mixed-case spellings are accepted; anything else is refused. */
  lemma FormattedPrivilegeExamples()
    ensures FormattedPrivilege("read") == Success("READ")
    ensures FormattedPrivilege("Write") == Success("WRITE")
    ensures FormattedPrivilege("all") == Success("ALL")
    ensures FormattedPrivilege("admin").Failure?
  {
    assert Upper("read") == "READ";
    assert Upper("Write") == "WRITE";
    assert Upper("all") == "ALL";
    assert Upper("admin") == "ADMIN";
  }

  /** The serializers a command's response can be handed to. */
  datatype Serializer =
    | FormattedSerieSerializer
    | FlatFormattedSerieSerializer
    | FlatSingleValueSerializer
    | FlatSimpleResultSerializer

  /** The text of a command and the serializer for its response. */
  datatype AdminQuery = AdminQuery(text: string, parser: Serializer)

  function QuoteAll(names: seq<string>): (r: seq<string>)
    ensures |r| == |names|
    ensures forall i :: 0 <= i < |names| ==> r[i] == Quote(names[i])
  {
    seq(|names|, i requires 0 <= i < |names| => Quote(names[i]))
  }

  /** `FROM "m1", "m2", ...`, or nothing when no measurement is named. */
  function FromClause(measurements: seq<string>): (r: string)
    ensures r == "" <==> |measurements| == 0
    ensures |measurements| > 0 ==> "FROM \"" + measurements[0] + "\"" <= r
    ensures |measurements| > 0 ==> r == "FROM " + Join(", ", QuoteAll(measurements))
  {
    var selected := Join(", ", QuoteAll(measurements));
    if selected != "" then "FROM " + selected else ""
  }

  predicate NoQuotes(names: seq<string>)
  {
    forall i :: 0 <= i < |names| ==> '"' !in names[i]
  }

  /** Reads back a non-empty list of double-quoted names separated by `, `. */
  function ParseQuotedList(t: string): Option<seq<string>>
    decreases |t|
  {
    if |t| == 0 || t[0] != '"' then None
    else
      var j := IndexOf(t[1..], '"');
      if j == |t| - 1 then None
      else
        var name, rest := t[1..1 + j], t[2 + j..];
        if rest == "" then Some([name])
        else if |rest| >= 2 && rest[..2] == ", " then
          match ParseQuotedList(rest[2..])
          case None => None
          case Some(names) => Some([name] + names)
        else None
  }

  /** Reads a FROM clause back into its measurements. */
  function ParseFromClause(s: string): Option<seq<string>>
  {
    if s == "" then Some([])
    else if |s| >= 5 && s[..5] == "FROM " then ParseQuotedList(s[5..])
    else None
  }

  /** Where the first quoted name of a text ends, and what follows it. */
  lemma QuotedNameSplit(name: string, tail: string)
    requires '"' !in name
    ensures var t := "\"" + name + "\"" + tail;
            && |t| > 0 && t[0] == '"'
            && IndexOf(t[1..], '"') == |name| && |name| != |t| - 1
            && t[1..1 + |name|] == name && t[2 + |name|..] == tail
  {
    var t := "\"" + name + "\"" + tail;
    assert t[1..] == name + ['"'] + tail;
    IndexOfAfter(name, '"', tail);
  }

  /** Reading one quoted name followed by the end of the text. */
  lemma ParseQuotedLast(name: string)
    requires '"' !in name
    ensures ParseQuotedList("\"" + name + "\"") == Some([name])
  {
    QuotedNameSplit(name, "");
    assert "\"" + name + "\"" + "" == "\"" + name + "\"";
  }

  /** Reading one quoted name followed by `, ` and further names. */
  lemma ParseQuotedMore(name: string, more: string, names: seq<string>)
    requires '"' !in name
    requires ParseQuotedList(more) == Some(names)
    ensures ParseQuotedList("\"" + name + "\"" + (", " + more)) == Some([name] + names)
  {
    var tail := ", " + more;
    QuotedNameSplit(name, tail);
    assert tail[..2] == ", " && tail[2..] == more;
  }

  /** A quoted list of two or more names starts with the first quoted name and `, `. */
  lemma QuotedJoinHead(names: seq<string>)
    requires |names| > 1
    ensures Join(", ", QuoteAll(names)) == Quote(names[0]) + (", " + Join(", ", QuoteAll(names[1..])))
  {
    var quoted := QuoteAll(names);
    assert quoted[1..] == QuoteAll(names[1..]);
    Regroup(Quote(names[0]), ", ", Join(", ", QuoteAll(names[1..])));
  }

  lemma {:induction false} ParseQuotedJoin(names: seq<string>)
    requires |names| > 0 && NoQuotes(names)
    ensures ParseQuotedList(Join(", ", QuoteAll(names))) == Some(names)
    decreases |names|
  {
    var name := names[0];
    assert '"' !in name;
    if |names| == 1 {
      assert Join(", ", QuoteAll(names)) == Quote(name);
      ParseQuotedLast(name);
      assert names == [name];
    } else {
      assert NoQuotes(names[1..]) by {
        forall i | 0 <= i < |names[1..]|
          ensures '"' !in names[1..][i]
        {
          assert names[1..][i] == names[i + 1];
        }
      }
      QuotedJoinHead(names);
      ParseQuotedJoin(names[1..]);
      ParseQuotedMore(name, Join(", ", QuoteAll(names[1..])), names[1..]);
      assert names == [name] + names[1..];
    }
  }

  /** The measurements can be read back from a FROM clause, as long as their
      names hold no double quote. */
  lemma FromClauseRoundTrip(measurements: seq<string>)
    requires NoQuotes(measurements)
    ensures ParseFromClause(FromClause(measurements)) == Some(measurements)
  {
    if |measurements| > 0 {
      ParseQuotedJoin(measurements);
      var r := FromClause(measurements);
      assert r[5..] == Join(", ", QuoteAll(measurements));
    }
  }

  /** Different lists of quote-free measurement names give different FROM clauses. */
  lemma FromClauseInjective(a: seq<string>, b: seq<string>)
    requires NoQuotes(a) && NoQuotes(b)
    requires FromClause(a) == FromClause(b)
    ensures a == b
  {
    FromClauseRoundTrip(a);
    FromClauseRoundTrip(b);
  }

  /** Without the no-quote condition the clause is not injective: a name
      holding `", "` renders as two names would. */
  lemma FromClauseQuoteCollision()
    ensures ["a\", \"b"] != ["a", "b"]
    ensures FromClause(["a\", \"b"]) == FromClause(["a", "b"])
  {
    assert ["a\", \"b"][0] != ["a", "b"][0];
    var one, two := QuoteAll(["a\", \"b"]), QuoteAll(["a", "b"]);
    assert one == [one[0]] && one[0] == "\"a\", \"b\"";
    assert two == [two[0]] + [two[1]] && two[0] == "\"a\"" && two[1] == "\"b\"";
    assert Join(", ", two) == two[0] + ", " + two[1] by {
      assert two[1..] == [two[1]];
    }
  }

  /** `WHERE c1 AND c2 ...` over the rendered criteria, or nothing when the
      joined text is empty. */
  function WhereClause(criteria: seq<string>): (r: string)
    ensures r == "" <==> |criteria| == 0 || criteria == [""]
    ensures r != "" ==> r == "WHERE " + Join(" AND ", criteria)
  {
    JoinEmpty(" AND ", criteria);
    var joined := Join(" AND ", criteria);
    if joined != "" then "WHERE " + joined else ""
  }

  /** Each further criterion adds ` AND ` and its rendering. */
  lemma WhereClauseAppend(criteria: seq<string>, c: string)
    requires WhereClause(criteria) != ""
    ensures WhereClause(criteria + [c]) == WhereClause(criteria) + " AND " + c
  {
    var joined := Join(" AND ", criteria);
    JoinAppend(" AND ", criteria, c);
    PrefixRegroups("WHERE ", joined, " AND ", c);
  }

  /** A SHOW command over measurements: the command, then the FROM clause,
      then a fixed tail. The measurements read back from between the two. */
  lemma FromClauseInCommand(command: string, measurements: seq<string>, tail: string)
    ensures var text := command + FromClause(measurements) + tail;
            && |text| >= |command| + |tail|
            && text[..|command|] == command
            && text[|text| - |tail|..] == tail
            && text[|command|..|text| - |tail|] == FromClause(measurements)
            && (|measurements| == 0 ==> text == command + tail)
            && (NoQuotes(measurements) ==>
                  ParseFromClause(text[|command|..|text| - |tail|]) == Some(measurements))
  {
    ConcatSlices(command, FromClause(measurements), tail);
    if NoQuotes(measurements) {
      FromClauseRoundTrip(measurements);
    }
  }

  function ShowFieldKeys(measurements: seq<string>): (q: AdminQuery)
    ensures |q.text| >= 16 && q.text[..16] == "SHOW FIELD KEYS "
    ensures q.text[16..] == FromClause(measurements)
    ensures |measurements| == 0 ==> q.text == "SHOW FIELD KEYS "
    ensures NoQuotes(measurements) ==> ParseFromClause(q.text[16..]) == Some(measurements)
    ensures q.parser == FormattedSerieSerializer
  {
    var text := "SHOW FIELD KEYS " + FromClause(measurements);
    FromClauseInCommand("SHOW FIELD KEYS ", measurements, "");
    assert text + "" == text;
    AdminQuery(text, FormattedSerieSerializer)
  }

  function ShowTagKeys(measurements: seq<string>): (q: AdminQuery)
    ensures |q.text| >= 14 && q.text[..14] == "SHOW TAG KEYS "
    ensures q.text[14..] == FromClause(measurements)
    ensures |measurements| == 0 ==> q.text == "SHOW TAG KEYS "
    ensures NoQuotes(measurements) ==> ParseFromClause(q.text[14..]) == Some(measurements)
    ensures q.parser == FormattedSerieSerializer
  {
    var text := "SHOW TAG KEYS " + FromClause(measurements);
    FromClauseInCommand("SHOW TAG KEYS ", measurements, "");
    assert text + "" == text;
    AdminQuery(text, FormattedSerieSerializer)
  }

  /** The tail naming the tag key: ` WITH KEY = ` and the double-quoted key. */
  function WithKey(key: string): (r: string)
    ensures |r| == 14 + |key|
  {
    " WITH KEY = " + Quote(key)
  }

  /** The FROM clause sits between the command and the tail naming the key. */
  function ShowTagValues(key: string, measurements: seq<string>): (q: AdminQuery)
    ensures |q.text| >= 16 + |WithKey(key)| && q.text[..16] == "SHOW TAG VALUES "
    ensures q.text[|q.text| - |WithKey(key)|..] == WithKey(key)
    ensures q.text[16..|q.text| - |WithKey(key)|] == FromClause(measurements)
    ensures |measurements| == 0 ==> q.text == "SHOW TAG VALUES " + WithKey(key)
    ensures NoQuotes(measurements) ==>
              ParseFromClause(q.text[16..|q.text| - |WithKey(key)|]) == Some(measurements)
    ensures q.parser == FormattedSerieSerializer
  {
    FromClauseInCommand("SHOW TAG VALUES ", measurements, WithKey(key));
    AdminQuery("SHOW TAG VALUES " + FromClause(measurements) + WithKey(key), FormattedSerieSerializer)
  }

  function ShowMeasurements(criteria: seq<string>): (q: AdminQuery)
    ensures |criteria| == 0 || criteria == [""] ==> q.text == "SHOW MEASUREMENTS "
    ensures |criteria| > 0 && criteria != [""] ==>
              q.text == "SHOW MEASUREMENTS WHERE " + Join(" AND ", criteria)
    ensures q.parser == FlatSimpleResultSerializer
  {
    AdminQuery("SHOW MEASUREMENTS " + WhereClause(criteria), FlatSimpleResultSerializer)
  }

  /** The text put in the `{exact}` slot of a cardinality command. */
  function ExactSlot(exact: bool): (r: string)
    ensures exact ==> r == "EXACT"
    ensures !exact ==> r == ""
  {
    if exact then "EXACT" else ""
  }

  /** Around a template without the letter `X`, the slot shows `EXACT`
      exactly when asked to. */
  lemma ExactIffShown(prefix: string, suffix: string, exact: bool)
    requires 'X' !in prefix + suffix
    ensures IsSubstring("EXACT", prefix + ExactSlot(exact) + suffix) <==> exact
  {
    if exact {
      SubstringOfConcat(prefix, "EXACT", suffix);
    } else {
      assert prefix + ExactSlot(exact) + suffix == prefix + suffix;
      NoExactWithoutX(prefix + suffix);
    }
  }

  function MeasurementCardinality(exact: bool): (q: AdminQuery)
    ensures IsSubstring("EXACT", q.text) <==> exact
    ensures q.parser == FlatSingleValueSerializer
  {
    ExactIffShown("SHOW MEASUREMENT ", " CARDINALITY", exact);
    AdminQuery("SHOW MEASUREMENT " + ExactSlot(exact) + " CARDINALITY", FlatSingleValueSerializer)
  }

  /** The full text of the command, with and without `EXACT`. */
  lemma MeasurementCardinalityText(exact: bool)
    ensures MeasurementCardinality(exact).text == if exact then "SHOW MEASUREMENT EXACT CARDINALITY" else "SHOW MEASUREMENT  CARDINALITY"
  {
    // The case split is only a hint to the solver: it keeps each case's proof small.
    if exact {
    } else {
    }
  }

  /** The only command whose serializer depends on `exact`. */
  function SeriesCardinality(exact: bool): (q: AdminQuery)
    ensures IsSubstring("EXACT", q.text) <==> exact
    ensures q.parser == FormattedSerieSerializer <==> exact
    ensures q.parser == FlatSingleValueSerializer <==> !exact
  {
    ExactIffShown("SHOW SERIES ", " CARDINALITY", exact);
    var parser := if exact then FormattedSerieSerializer else FlatSingleValueSerializer;
    AdminQuery("SHOW SERIES " + ExactSlot(exact) + " CARDINALITY", parser)
  }

  /** The full text of the command, with and without `EXACT`. */
  lemma SeriesCardinalityText(exact: bool)
    ensures SeriesCardinality(exact).text == if exact then "SHOW SERIES EXACT CARDINALITY" else "SHOW SERIES  CARDINALITY"
  {
    // The case split is only a hint to the solver: it keeps each case's proof small.
    if exact {
    } else {
    }
  }

  function TagKeyCardinality(exact: bool): (q: AdminQuery)
    ensures IsSubstring("EXACT", q.text) <==> exact
    ensures q.parser == FormattedSerieSerializer
  {
    ExactIffShown("SHOW TAG KEY ", " CARDINALITY", exact);
    AdminQuery("SHOW TAG KEY " + ExactSlot(exact) + " CARDINALITY", FormattedSerieSerializer)
  }

  /** The full text of the command, with and without `EXACT`. */
  lemma TagKeyCardinalityText(exact: bool)
    ensures TagKeyCardinality(exact).text == if exact then "SHOW TAG KEY EXACT CARDINALITY" else "SHOW TAG KEY  CARDINALITY"
  {
    // The case split is only a hint to the solver: it keeps each case's proof small.
    if exact {
    } else {
    }
  }

  /** The tag-values cardinality text shows `EXACT` when asked for; without
      it, `EXACT` can only come from the key. */
  lemma TagValuesExactSlot(key: string, exact: bool)
    ensures var text := "SHOW TAG VALUES " + ExactSlot(exact) + (" CARDINALITY WITH KEY = " + Quote(key));
            && (exact ==> IsSubstring("EXACT", text))
            && ('X' !in key ==> (IsSubstring("EXACT", text) <==> exact))
  {
    var suffix := " CARDINALITY WITH KEY = " + Quote(key);
    SubstringOfConcat("SHOW TAG VALUES ", "EXACT", suffix);
    if 'X' !in key {
      assert 'X' !in "SHOW TAG VALUES ";
      assert 'X' !in " CARDINALITY WITH KEY = ";
      assert 'X' !in Quote(key);
      ExactIffShown("SHOW TAG VALUES ", suffix, exact);
    }
  }

  function TagValuesCardinality(key: string, exact: bool): (q: AdminQuery)
    ensures exact ==> IsSubstring("EXACT", q.text)
    ensures 'X' !in key ==> (IsSubstring("EXACT", q.text) <==> exact)
    ensures !exact ==> q.text == "SHOW TAG VALUES " + (" CARDINALITY WITH KEY = " + Quote(key))
    ensures exact ==> q.text == "SHOW TAG VALUES EXACT" + (" CARDINALITY WITH KEY = " + Quote(key))
    ensures q.parser == FormattedSerieSerializer
  {
    TagValuesExactSlot(key, exact);
    assert "SHOW TAG VALUES " + ExactSlot(true) == "SHOW TAG VALUES EXACT";
    AdminQuery("SHOW TAG VALUES " + ExactSlot(exact) + (" CARDINALITY WITH KEY = " + Quote(key)),
               FormattedSerieSerializer)
  }
}

=== FILE: attributes.dfy ===
/** The field attribute base of a measurement schema: the timestamp precision
    codes, the table of conversion ratios relative to seconds, and the
    defaults and null rule of the base attribute. */
module Attributes {
  import opened Wrappers

  /** The time precision units a timestamp attribute may be configured with. */
  datatype TimestampPrecision = Hours | Microseconds | Milliseconds | Minutes | Nanoseconds | Seconds

  /** The textual code of each unit, as the database's query API spells it. */
  function Code(p: TimestampPrecision): string
  {
    match p
    case Hours => "h"
    case Microseconds => "u"
    case Milliseconds => "ms"
    case Minutes => "m"
    case Nanoseconds => "ns"
    case Seconds => "s"
  }

  /** Reads a precision code back; the inverse of `Code`. */
  function PrecisionOfCode(code: string): (r: Option<TimestampPrecision>)
    ensures r.Some? ==> Code(r.value) == code
    ensures r.None? ==> forall p: TimestampPrecision :: Code(p) != code
  {
    if code == "h" then Some(Hours)
    else if code == "u" then Some(Microseconds)
    else if code == "ms" then Some(Milliseconds)
    else if code == "m" then Some(Minutes)
    else if code == "ns" then Some(Nanoseconds)
    else if code == "s" then Some(Seconds)
    else None
  }

  /** Every unit's code reads back as that unit, so distinct units have distinct codes. */
  lemma CodeRoundTrip(p: TimestampPrecision)
    ensures PrecisionOfCode(Code(p)) == Some(p)
  {
  }

  lemma CodesDistinct(p: TimestampPrecision, q: TimestampPrecision)
    ensures Code(p) == Code(q) <==> p == q
  {
    CodeRoundTrip(p);
    CodeRoundTrip(q);
  }

  /** The set of all precision codes. */
  const PrecisionCodes: set<string> := {"h", "u", "ms", "m", "ns", "s"}

  /** The reciprocal; the helper the ratio table uses for units coarser than a second. */
  function Inv(x: real): (r: real)
    requires x != 0.0
    ensures r * x == 1.0
  {
    1.0 / x
  }

  /** How many units of each precision make one second. */
  const TimestampConvertRatio: map<string, real> := map[
    Code(Hours) := Inv(60.0 * 60.0),
    Code(Microseconds) := 1.0 * 1000.0 * 1000.0,
    Code(Milliseconds) := 1000.0,
    Code(Minutes) := Inv(60.0),
    Code(Nanoseconds) := 1.0 * 1000.0 * 1000.0 * 1000.0,
    Code(Seconds) := 1.0
  ]

  /** The ratio table is defined on exactly the six codes, i.e. on every unit. */
  lemma RatioTableDomain()
    ensures TimestampConvertRatio.Keys == PrecisionCodes
    ensures forall p: TimestampPrecision :: Code(p) in TimestampConvertRatio
    ensures |PrecisionCodes| == 6
  {
  }

  /** The exact ratio values, and the factor of 1000 between sub-second units. */
  lemma RatioValues()
    ensures TimestampConvertRatio["s"] == 1.0
    ensures TimestampConvertRatio["ms"] == 1000.0
    ensures TimestampConvertRatio["u"] == 1000000.0
    ensures TimestampConvertRatio["ns"] == 1000000000.0
    ensures TimestampConvertRatio["h"] == 1.0 / 3600.0
    ensures TimestampConvertRatio["m"] == 1.0 / 60.0
    ensures TimestampConvertRatio["ns"] == 1000.0 * TimestampConvertRatio["u"]
    ensures TimestampConvertRatio["u"] == 1000.0 * TimestampConvertRatio["ms"]
    ensures TimestampConvertRatio["ms"] == 1000.0 * TimestampConvertRatio["s"]
    ensures TimestampConvertRatio["m"] == 60.0 * TimestampConvertRatio["h"]
  {
  }

  /** The state of a base attribute. Values are of the attribute's value type `T`;
      `None` is Python's `None`. The two flags hold whatever was passed for
      them: a boolean, or `None`. */
  datatype BaseAttribute<T> = BaseAttribute(
    value: Option<T>,
    rawValue: Option<T>,
    attributeName: Option<string>,
    default: Option<T>,
    enforceCast: Option<bool>,
    isNullable: Option<bool>)

  /** A keyword argument: not passed at all, or passed with a value (which may
      itself be `None`). */
  datatype Keyword<T> = Absent | Passed(value: T)

  /** `kwargs.get(name, default)`. */
  function KeywordGet<T>(k: Keyword<T>, default: T): (r: T)
    ensures k.Absent? ==> r == default
    ensures k.Passed? ==> r == k.value
  {
    match k
    case Absent => default
    case Passed(v) => v
  }

  /** The keyword arguments of the constructor. For `name` and `default`, an
      argument not passed reads as `None`, as passing `None` does. */
  datatype AttributeOptions<T> = AttributeOptions(
    name: Option<string>,
    default: Option<T>,
    enforceCast: Keyword<Option<bool>>,
    isNullable: Keyword<Option<bool>>)

  /** A fresh attribute: no value yet; the other settings from the keyword
      arguments, with casting enforced and nulls allowed when the flag is not
      passed. A flag passed as `None` is stored as `None`. */
  function NewAttribute<T>(options: AttributeOptions<T>): (a: BaseAttribute<T>)
    ensures a.value.None? && a.rawValue.None?
    ensures a.attributeName == options.name && a.default == options.default
    ensures options.enforceCast.Absent? ==> a.enforceCast == Some(true)
    ensures options.enforceCast.Passed? ==> a.enforceCast == options.enforceCast.value
    ensures options.isNullable.Absent? ==> a.isNullable == Some(true)
    ensures options.isNullable.Passed? ==> a.isNullable == options.isNullable.value
  {
    BaseAttribute(
      None,
      None,
      options.name,
      options.default,
      KeywordGet(options.enforceCast, Some(true)),
      KeywordGet(options.isNullable, Some(true)))
  }

  /** An attribute built without keyword arguments. */
  lemma FreshAttributeDefaults<T>()
    ensures var a: BaseAttribute<T> := NewAttribute(AttributeOptions(None, None, Absent, Absent));
      && a.value == None && a.rawValue == None && a.attributeName == None
      && a.default == None && a.enforceCast == Some(true) && a.isNullable == Some(true)
  {
  }

  /** Passing a flag as `None` is not the same as leaving it out: `None` is kept. */
  lemma ExplicitNoneFlagsKept<T>()
    ensures var a: BaseAttribute<T> := NewAttribute(AttributeOptions(None, None, Passed(None), Passed(None)));
      && a.enforceCast == None && a.isNullable == None
    ensures var a: BaseAttribute<T> := NewAttribute(AttributeOptions(None, None, Passed(Some(false)), Absent));
      && a.enforceCast == Some(false) && a.isNullable == Some(true)
  {
  }

  /** The part of `clean` that handles a missing value: `None` is replaced by the
      default (which may itself be `None`); a present value is left as it is. */
  function Clean<T>(a: BaseAttribute<T>, v: Option<T>): (r: BaseAttribute<T>)
    ensures v.None? && a.default.Some? ==> r.value == a.default
    ensures v.None? && a.default.None? ==> r.value.None?
    ensures v.Some? ==> r.value == a.value
    ensures r.rawValue == a.rawValue && r.attributeName == a.attributeName
    ensures r.default == a.default && r.enforceCast == a.enforceCast
    ensures r.isNullable == a.isNullable
  {
    if v.None? && a.default.Some? then a.(value := a.default)
    else if v.None? then a.(value := None)
    else a
  }

  /** Cleaning twice with the same input is cleaning once. */
  lemma CleanIdempotent<T>(a: BaseAttribute<T>, v: Option<T>)
    ensures Clean(Clean(a, v), v) == Clean(a, v)
  {
  }

  /** After cleaning `None`, the value is the default, whatever the earlier value was. */
  lemma CleanNoneIsDefault<T>(a: BaseAttribute<T>, b: BaseAttribute<T>)
    requires a.default == b.default
    ensures Clean(a, None).value == Clean(b, None).value == a.default
  {
  }

  /** A fresh attribute cleaned with `None` takes its default and keeps its
      name and flags from the keyword arguments. */
  lemma CleanFreshAttribute<T>(options: AttributeOptions<T>)
    ensures var a := Clean(NewAttribute(options), None);
            && a.value == options.default && a.rawValue.None?
            && a.attributeName == options.name
            && a.enforceCast == KeywordGet(options.enforceCast, Some(true))
            && a.isNullable == KeywordGet(options.isNullable, Some(true))
  {
  }
}

=== FILE: criteria.dfy ===
/** The comparison operators of a WHERE criterion and the symbols they render as. */
module Criteria {
  import opened Wrappers

  datatype WhereOperator = LT | LTE | GT | GTE | EQ | NE

  /** The enumeration's own value of each operator. */
  function Value(op: WhereOperator): string
  {
    match op
    case LT => "lt"
    case LTE => "lte"
    case GT => "gt"
    case GTE => "gte"
    case EQ => "eq"
    case NE => "ne"
  }

  /** Looks an operator up by its enumeration value, as `WhereOperator(value)`
      does; `None` where Python raises `ValueError`. */
  function OperatorOfValue(v: string): (r: Option<WhereOperator>)
    ensures r.Some? ==> Value(r.value) == v
    ensures r.None? ==> forall op: WhereOperator :: Value(op) != v
  {
    if v == "lt" then Some(LT)
    else if v == "lte" then Some(LTE)
    else if v == "gt" then Some(GT)
    else if v == "gte" then Some(GTE)
    else if v == "eq" then Some(EQ)
    else if v == "ne" then Some(NE)
    else None
  }

  /** The enumeration values are pairwise distinct. */
  lemma ValuesDistinct(a: WhereOperator, b: WhereOperator)
    ensures Value(a) == Value(b) <==> a == b
  {
    assert OperatorOfValue(Value(a)) == Some(a);
    assert OperatorOfValue(Value(b)) == Some(b);
  }

  /** The textual symbol each operator renders as in a query. */
  const EvaluatedOperators: map<WhereOperator, string> := map[
    LT := "<",
    LTE := "<=",
    GT := ">",
    GTE := ">=",
    EQ := "=",
    NE := "!="
  ]

  /** The symbol table is total over the operators and gives the expected symbols. */
  lemma EvaluatedOperatorsTable()
    ensures forall op: WhereOperator :: op in EvaluatedOperators
    ensures EvaluatedOperators[LT] == "<" && EvaluatedOperators[LTE] == "<="
    ensures EvaluatedOperators[GT] == ">" && EvaluatedOperators[GTE] == ">="
    ensures EvaluatedOperators[EQ] == "=" && EvaluatedOperators[NE] == "!="
  {
    forall op: WhereOperator
      ensures op in EvaluatedOperators
    {
      match op
      case LT => case LTE => case GT => case GTE => case EQ => case NE =>
    }
  }

  /** Reads a rendered symbol back as its operator: the inverse of the table. */
  function OperatorOfSymbol(s: string): (r: Option<WhereOperator>)
    ensures r.Some? ==> r.value in EvaluatedOperators && EvaluatedOperators[r.value] == s
    ensures r.None? ==> s !in EvaluatedOperators.Values
  {
    if s == "<" then Some(LT)
    else if s == "<=" then Some(LTE)
    else if s == ">" then Some(GT)
    else if s == ">=" then Some(GTE)
    else if s == "=" then Some(EQ)
    else if s == "!=" then Some(NE)
    else None
  }

  /** The symbol table is injective: distinct operators render differently. */
  lemma EvaluatedOperatorsInjective(a: WhereOperator, b: WhereOperator)
    ensures a in EvaluatedOperators && b in EvaluatedOperators
    ensures EvaluatedOperators[a] == EvaluatedOperators[b] <==> a == b
  {
    EvaluatedOperatorsTable();
    assert OperatorOfSymbol(EvaluatedOperators[a]) == Some(a);
    assert OperatorOfSymbol(EvaluatedOperators[b]) == Some(b);
  }
}

=== FILE: functions.dfy ===
/** Query-language function calls such as `MAX(FIRST(value))`: a function
    holds an identifier and a subject, and the subject is either plain text
    or another function, whose own rendering is substituted. */
module Functions {
  import opened Wrappers
  import opened Text

  datatype Function = Function(identifier: string, field: Subject)

  /** The argument of a function: a field name (any object without an
      `evaluate` of its own, taken by its text) or a nested function. */
  datatype Subject = Plain(text: string) | Nested(call: Function)

  /** The subject used when none is given. */
  const Star: Subject := Plain("*")

  /** An instance of the function class generated for `identifier`. */
  function MakeFunction(identifier: string, field: Subject := Star): (f: Function)
    ensures f.identifier == identifier && f.field == field
  {
    Function(identifier, field)
  }

  /** The rendering `IDENTIFIER(subject)`. */
  function Evaluate(f: Function): (r: string)
    ensures |r| >= |f.identifier| + 2
    ensures r[..|f.identifier| + 1] == f.identifier + "("
    ensures r[|r| - 1] == ')'
    decreases f
  {
    f.identifier + "(" + EvaluateSubject(f.field) + ")"
  }

  /** A field name is placed as its text; a nested function as its rendering. */
  function EvaluateSubject(s: Subject): (r: string)
    ensures s.Plain? ==> r == s.text
    ensures s.Nested? ==> |r| >= |s.call.identifier| + 2 && s.call.identifier + "(" <= r && r[|r| - 1] == ')'
    decreases s
  {
    match s
    case Plain(t) => t
    case Nested(g) => Evaluate(g)
  }

  /** Rendering with the default subject. */
  lemma EvaluateDefault(identifier: string)
    ensures Evaluate(MakeFunction(identifier)) == identifier + "(*)"
  {
  }

  /** A plain subject is placed between the parentheses as it is, and a nested
      function contributes its own rendering. */
  lemma EvaluateComposes(identifier: string, s: string, g: Function)
    ensures Evaluate(MakeFunction(identifier, Plain(s))) == identifier + "(" + s + ")"
    ensures Evaluate(MakeFunction(identifier, Nested(g))) == identifier + "(" + Evaluate(g) + ")"
  {
  }

  /** Number of function levels. */
  function Depth(f: Function): (n: nat)
    ensures n >= 1
    decreases f
  {
    match f.field
    case Plain(_) => 1
    case Nested(g) => 1 + Depth(g)
  }

  /** `c` occurs in no identifier and not in the innermost plain subject. */
  predicate Free(c: char, f: Function)
    decreases f
  {
    && c !in f.identifier
    && match f.field
       case Plain(t) => c !in t
       case Nested(g) => Free(c, g)
  }

  /** Each level adds exactly one `(` and one `)`: when identifiers and the
      innermost subject hold no parenthesis, a rendering holds as many of
      each as there are levels. */
  lemma {:induction false} ParenthesesPerLevel(c: char, f: Function)
    requires c == '(' || c == ')'
    requires Free(c, f)
    ensures CountChar(c, Evaluate(f)) == Depth(f)
    decreases f
  {
    var inner := EvaluateSubject(f.field);
    CountCharConcat(c, f.identifier + "(" + inner, ")");
    CountCharConcat(c, f.identifier + "(", inner);
    CountCharConcat(c, f.identifier, "(");
    assert CountChar(c, "(") + CountChar(c, ")") == 1;
    match f.field
    case Plain(t) =>
    case Nested(g) =>
      ParenthesesPerLevel(c, g);
  }

  /** Reads a rendering back: the identifier runs up to the first `(`, and the
      subject lies between it and the final `)`. */
  function ParseFunction(s: string): Option<Function>
    decreases |s|, 0
  {
    var k := IndexOf(s, '(');
    if k + 1 >= |s| || s[|s| - 1] != ')' then None
    else
      match ParseSubject(s[k + 1..|s| - 1])
      case None => None
      case Some(sub) => Some(Function(s[..k], sub))
  }

  /** A subject holding a `(` is read as a nested function, any other as plain text. */
  function ParseSubject(s: string): Option<Subject>
    decreases |s|, 1
  {
    if '(' in s then
      match ParseFunction(s)
      case None => None
      case Some(g) => Some(Nested(g))
    else Some(Plain(s))
  }

  /** A rendering splits at the identifier's `(` and the final `)`. */
  lemma ParseRendering(identifier: string, inner: string)
    requires '(' !in identifier
    ensures ParseFunction(identifier + "(" + inner + ")") ==
              match ParseSubject(inner)
              case None => None
              case Some(sub) => Some(Function(identifier, sub))
  {
    var s := identifier + "(" + inner + ")";
    assert s == identifier + ['('] + (inner + ")");
    IndexOfAfter(identifier, '(', inner + ")");
    assert s[..|identifier|] == identifier;
    assert s[|identifier| + 1..|s| - 1] == inner;
  }

  /** Reading a rendering back gives the function that was rendered, as long
      as no identifier and no plain subject holds a `(`. */
  lemma {:induction false} ParseEvaluate(f: Function)
    requires Free('(', f)
    ensures ParseFunction(Evaluate(f)) == Some(f)
    decreases f
  {
    ParseRendering(f.identifier, EvaluateSubject(f.field));
    match f.field
    case Plain(t) =>
    case Nested(g) =>
      ParseEvaluate(g);
      assert Evaluate(g)[|g.identifier|] == '(';
  }

  /** Rendering is injective on functions whose identifiers and plain subjects hold no `(`. */
  lemma EvaluateInjective(f: Function, g: Function)
    requires Free('(', f) && Free('(', g)
    requires Evaluate(f) == Evaluate(g)
    ensures f == g
  {
    ParseEvaluate(f);
    ParseEvaluate(g);
  }

  /** Without that restriction it is not: a plain subject that looks like a
      call renders exactly like the call itself. */
  lemma PlainLooksLikeNested()
    ensures var plain := MakeFunction("MAX", Plain("FIRST(v)"));
            var nested := MakeFunction("MAX", Nested(MakeFunction("FIRST", Plain("v"))));
            plain != nested && Evaluate(plain) == Evaluate(nested)
  {
  }
}

=== FILE: json.dfy ===
/** A decoded JSON document, and the handful of Python operations the
    response view applies to it: `key in v`, `v[key]`, `len(v)`, `v[0]`,
    iteration and `v.get(key, default)`. Where Python raises, the result is
    a `Failure` naming the exception. */
module Json {
  import opened Wrappers
  import opened Text

  /** An object is kept as its members in document order, repeated keys
      included. The operations below read it as the dictionary Python decodes
      it into: a repeated key is bound to its last value and is counted and
      visited once, at the position of its first binding. */
  datatype Value =
    | Null
    | Bool(b: bool)
    | Number(n: real)
    | Str(s: string)
    | Array(items: seq<Value>)
    | Object(members: seq<(string, Value)>)

  /** Python's exceptions; `IntKeyError` is a `KeyError` raised for an
      integer key, which no string key of an object can be confused with. */
  datatype PyError =
    | TypeError
    | KeyError(key: string)
    | IntKeyError(index: int)
    | IndexError
    | AttributeError

  predicate HasKey(members: seq<(string, Value)>, key: string)
  {
    exists i :: 0 <= i < |members| && members[i].0 == key
  }

  /** A key is bound in the members exactly when it is bound before the last
      member or by the last member. */
  lemma HasKeyLast(members: seq<(string, Value)>, key: string)
    requires |members| > 0
    ensures HasKey(members, key) <==>
              HasKey(members[..|members| - 1], key) || members[|members| - 1].0 == key
  {
    var init := members[..|members| - 1];
    if HasKey(members, key) && members[|members| - 1].0 != key {
      var i :| 0 <= i < |members| && members[i].0 == key;
      assert init[i].0 == key;
    }
    if HasKey(init, key) {
      var i :| 0 <= i < |init| && init[i].0 == key;
      assert members[i].0 == key;
    }
  }

  /** The value bound to `key`, as Python's dictionary holds it: a repeated key
      keeps its last binding. */
  function Lookup(members: seq<(string, Value)>, key: string): (r: Option<Value>)
    ensures r.Some? <==> HasKey(members, key)
    ensures r.Some? ==> exists i :: 0 <= i < |members| && members[i] == (key, r.value)
                                    && forall j :: i < j < |members| ==> members[j].0 != key
    decreases |members|
  {
    if |members| == 0 then None
    else
      var n := |members| - 1;
      HasKeyLast(members, key);
      if members[n].0 == key then Some(members[n].1)
      else
        var r := Lookup(members[..n], key);
        if r.Some? then
          var i :| 0 <= i < n && members[..n][i] == (key, r.value)
                   && forall j :: i < j < n ==> members[..n][j].0 != key;
          assert members[i] == (key, r.value);
          assert forall j :: i < j < |members| ==> members[j].0 != key by {
            forall j | i < j < |members|
              ensures members[j].0 != key
            {
              if j < n {
                assert members[..n][j] == members[j];
              }
            }
          }
          r
        else r
  }

  /** The position of the first binding of `key`, or `|members|` when it is unbound. */
  function KeyIndex(members: seq<(string, Value)>, key: string): (i: nat)
    ensures i <= |members|
    ensures i < |members| <==> HasKey(members, key)
    ensures i < |members| ==> members[i].0 == key
    ensures forall j :: 0 <= j < i ==> members[j].0 != key
    decreases |members|
  {
    if |members| == 0 then 0
    else if members[0].0 == key then 0
    else
      var i := 1 + KeyIndex(members[1..], key);
      assert forall j :: 1 <= j < i ==> members[j].0 == members[1..][j - 1].0;
      assert HasKey(members, key) ==> HasKey(members[1..], key) by {
        if HasKey(members, key) {
          var m :| 0 <= m < |members| && members[m].0 == key;
          assert members[1..][m - 1].0 == key;
        }
      }
      i
  }

  /** Appending a member does not move the first binding of a key bound before it. */
  lemma KeyIndexPrefix(members: seq<(string, Value)>, key: string)
    requires |members| > 0 && HasKey(members[..|members| - 1], key)
    ensures KeyIndex(members, key) == KeyIndex(members[..|members| - 1], key)
  {
    var init := members[..|members| - 1];
    var a, b := KeyIndex(init, key), KeyIndex(members, key);
    assert members[a].0 == key;
  }

  /** A key first bound by the last member has its first binding there. */
  lemma KeyIndexLast(members: seq<(string, Value)>)
    requires |members| > 0 && !HasKey(members[..|members| - 1], members[|members| - 1].0)
    ensures KeyIndex(members, members[|members| - 1].0) == |members| - 1
  {
    var n := |members| - 1;
    var k := members[n].0;
    forall j | 0 <= j < n
      ensures members[j].0 != k
    {
      assert members[..n][j] == members[j];
    }
  }

  /** The keys of the decoded dictionary, each once, in the order of their
      first binding. */
  function Keys(members: seq<(string, Value)>): (r: seq<string>)
    ensures forall k :: k in r <==> HasKey(members, k)
    ensures forall i, j :: 0 <= i < j < |r| ==> r[i] != r[j]
    ensures forall i, j :: 0 <= i < j < |r| ==> KeyIndex(members, r[i]) < KeyIndex(members, r[j])
    decreases |members|
  {
    if |members| == 0 then []
    else
      var n := |members| - 1;
      var k := members[n].0;
      var keys := Keys(members[..n]);
      assert forall x :: HasKey(members, x) <==> HasKey(members[..n], x) || x == k by {
        forall x
          ensures HasKey(members, x) <==> HasKey(members[..n], x) || x == k
        {
          HasKeyLast(members, x);
        }
      }
      KeysKeepIndex(members, keys);
      if k in keys then keys
      else
        KeyIndexLast(members);
        keys + [k]
  }

  /** Keys bound before the last member keep their first-binding positions. */
  lemma KeysKeepIndex(members: seq<(string, Value)>, keys: seq<string>)
    requires |members| > 0
    requires forall x :: x in keys ==> HasKey(members[..|members| - 1], x)
    ensures forall i :: 0 <= i < |keys| ==>
              KeyIndex(members, keys[i]) == KeyIndex(members[..|members| - 1], keys[i]) < |members| - 1
  {
    forall i | 0 <= i < |keys|
      ensures KeyIndex(members, keys[i]) == KeyIndex(members[..|members| - 1], keys[i]) < |members| - 1
    {
      assert keys[i] in keys;
      KeyIndexPrefix(members, keys[i]);
    }
  }

  /** `key in v`: a key of an object, an element of a list, a piece of a string. */
  function Contains(v: Value, key: string): (r: Result<bool, PyError>)
    ensures r.Success? <==> v.Object? || v.Array? || v.Str?
    ensures v.Object? ==> r == Success(HasKey(v.members, key))
    ensures v.Array? ==> r == Success(Str(key) in v.items)
    ensures v.Str? ==> r == Success(IsSubstring(key, v.s))
    ensures !(v.Object? || v.Array? || v.Str?) ==> r == Failure(TypeError)
  {
    match v
    case Object(ms) => Success(HasKey(ms, key))
    case Array(xs) => Success(Str(key) in xs)
    case Str(s) => Success(IsSubstring(key, s))
    case _ => Failure(TypeError)
  }

  /** `v[key]` with a string key: only an object can answer it. */
  function GetItem(v: Value, key: string): (r: Result<Value, PyError>)
    ensures r.Success? <==> v.Object? && HasKey(v.members, key)
    ensures r.Success? ==> Lookup(v.members, key) == Some(r.value)
    ensures v.Object? && !HasKey(v.members, key) ==> r == Failure(KeyError(key))
    ensures !v.Object? ==> r == Failure(TypeError)
  {
    match v
    case Object(ms) =>
      (match Lookup(ms, key)
       case Some(x) => Success(x)
       case None => Failure(KeyError(key)))
    case _ => Failure(TypeError)
  }

  /** `len(v)`: an object counts its distinct keys. */
  function Len(v: Value): (r: Result<nat, PyError>)
    ensures r.Success? <==> v.Object? || v.Array? || v.Str?
    ensures v.Object? ==> r == Success(|Keys(v.members)|)
    ensures v.Array? ==> r == Success(|v.items|)
    ensures v.Str? ==> r == Success(|v.s|)
    ensures !(v.Object? || v.Array? || v.Str?) ==> r == Failure(TypeError)
  {
    match v
    case Object(ms) => Success(|Keys(ms)|)
    case Array(xs) => Success(|xs|)
    case Str(s) => Success(|s|)
    case _ => Failure(TypeError)
  }

  /** `v[0]`. On an object Python raises `KeyError(0)` with the integer `0`,
      never found among the string keys, so even a string key `"0"` does not
      answer it. */
  function Head(v: Value): (r: Result<Value, PyError>)
    ensures v.Array? && |v.items| > 0 ==> r == Success(v.items[0])
    ensures v.Array? && |v.items| == 0 ==> r == Failure(IndexError)
    ensures v.Str? && |v.s| > 0 ==> r == Success(Str([v.s[0]]))
    ensures v.Str? && |v.s| == 0 ==> r == Failure(IndexError)
    ensures v.Object? ==> r == Failure(IntKeyError(0))
    ensures !(v.Array? || v.Str? || v.Object?) ==> r == Failure(TypeError)
  {
    match v
    case Array(xs) => if |xs| == 0 then Failure(IndexError) else Success(xs[0])
    case Str(s) => if |s| == 0 then Failure(IndexError) else Success(Str([s[0]]))
    case Object(_) => Failure(IntKeyError(0))
    case _ => Failure(TypeError)
  }

  /** The elements `for x in v` visits: list items, one-character strings, or object keys. */
  function Iterate(v: Value): (r: Result<seq<Value>, PyError>)
    ensures v.Array? ==> r == Success(v.items)
    ensures r.Success? <==> v.Object? || v.Array? || v.Str?
    ensures !(v.Object? || v.Array? || v.Str?) ==> r == Failure(TypeError)
    ensures v.Object? ==> r.Success? && |r.value| == |Keys(v.members)|
    ensures v.Object? ==> forall i :: 0 <= i < |r.value| ==> r.value[i] == Str(Keys(v.members)[i])
    ensures v.Str? ==> r.Success? && |r.value| == |v.s|
    ensures v.Str? ==> forall i :: 0 <= i < |r.value| ==> r.value[i] == Str([v.s[i]])
  {
    match v
    case Array(xs) => Success(xs)
    case Str(s) => Success(seq(|s|, i requires 0 <= i < |s| => Str([s[i]])))
    case Object(ms) =>
      var keys := Keys(ms);
      Success(seq(|keys|, i requires 0 <= i < |keys| => Str(keys[i])))
    case _ => Failure(TypeError)
  }

  /** `v.get(key, default)`: only objects have the method. */
  function Get(v: Value, key: string, default: Value): (r: Result<Value, PyError>)
    ensures r.Success? <==> v.Object?
    ensures !v.Object? ==> r == Failure(AttributeError)
    ensures v.Object? && HasKey(v.members, key) ==> r == GetItem(v, key)
    ensures v.Object? && !HasKey(v.members, key) ==> r == Success(default)
  {
    match v
    case Object(ms) => Success(Lookup(ms, key).GetOr(default))
    case _ => Failure(AttributeError)
  }
}

=== FILE: response.dfy ===
/** Read-only views over a decoded query response: the list of series of
    the first result, the main series, and the name, columns and rows of
    one series; plus the error view of a failed response. */
module Response {
  import opened Wrappers
  import opened Json

  /** A decoded response; `raw` gives back the document it was built from. */
  datatype InfluxDBResponse = InfluxDBResponse(raw: Value)

  /** One series of a result. */
  datatype SerieResponse = SerieResponse(raw: Value)

  /** A response reporting an error. */
  datatype InfluxDBErrorResponse = InfluxDBErrorResponse(raw: Value)

  /** Wraps every element of `xs` as a series view. */
  function Wrap(xs: seq<Value>): (r: seq<SerieResponse>)
    ensures |r| == |xs|
    ensures forall i :: 0 <= i < |xs| ==> r[i].raw == xs[i]
  {
    seq(|xs|, i requires 0 <= i < |xs| => SerieResponse(xs[i]))
  }

  /** The series of the first result; an empty list when there are no
      results, no first result, or no series in it. */
  function Series(response: InfluxDBResponse): (r: Result<seq<SerieResponse>, PyError>)
    ensures response.raw.Object? && !HasKey(response.raw.members, "results") ==> r == Success([])
    ensures r.Success? && r.value != [] ==>
              response.raw.Object? && HasKey(response.raw.members, "results")
  {
    var raw := response.raw;
    var hasResults :- Contains(raw, "results");
    if !hasResults then Success([])
    else
      var results :- GetItem(raw, "results");
      var count :- Len(results);
      if count == 0 then Success([])
      else
        var result :- Head(results);
        SeriesOfResult(result)
  }

  /** The series views of one result, or an empty list when it has no series. */
  function SeriesOfResult(result: Value): (r: Result<seq<SerieResponse>, PyError>)
    ensures result.Object? && !HasKey(result.members, "series") ==> r == Success([])
    ensures result.Object? && Lookup(result.members, "series").Some? &&
            Lookup(result.members, "series").value.Array? ==>
              r == Success(Wrap(Lookup(result.members, "series").value.items))
  {
    var hasSeries :- Contains(result, "series");
    if !hasSeries then Success([])
    else
      var series :- GetItem(result, "series");
      var items :- Iterate(series);
      Success(Wrap(items))
  }

  /** The first series, or `None` when there is none. */
  function MainSerie(response: InfluxDBResponse): (r: Result<Option<SerieResponse>, PyError>)
    ensures r.Success? <==> Series(response).Success?
    ensures r.Failure? ==> r.error == Series(response).error
    ensures r.Success? ==> (r.value.None? <==> |Series(response).value| == 0)
    ensures r.Success? && r.value.Some? ==> r.value.value == Series(response).value[0]
  {
    var series :- Series(response);
    if |series| > 0 then Success(Some(series[0])) else Success(None)
  }

  /** A response document holding no `results` member has no series. */
  lemma SeriesWithoutResults(members: seq<(string, Value)>)
    requires !HasKey(members, "results")
    ensures Series(InfluxDBResponse(Object(members))) == Success([])
  {
  }

  /** An empty `results` list gives no series. */
  lemma SeriesOfEmptyResults(members: seq<(string, Value)>)
    requires Lookup(members, "results") == Some(Array([]))
    ensures Series(InfluxDBResponse(Object(members))) == Success([])
  {
  }

  /** With at least one result, the series are those of the first result. */
  lemma SeriesOfFirstResult(members: seq<(string, Value)>, first: Value, rest: seq<Value>)
    requires Lookup(members, "results") == Some(Array([first] + rest))
    ensures Series(InfluxDBResponse(Object(members))) == SeriesOfResult(first)
  {
    var results := Array([first] + rest);
    assert GetItem(Object(members), "results") == Success(results);
    assert Head(results) == Success(first);
  }

  /** A first result without a `series` member gives no series. */
  lemma SeriesWithoutSeriesKey(members: seq<(string, Value)>, first: seq<(string, Value)>, rest: seq<Value>)
    requires Lookup(members, "results") == Some(Array([Object(first)] + rest))
    requires !HasKey(first, "series")
    ensures Series(InfluxDBResponse(Object(members))) == Success([])
  {
    SeriesOfFirstResult(members, Object(first), rest);
  }

  /** In the documented shape, the series views are the entries of the first
      result's `series` list, in the same order and of the same number. */
  lemma SeriesOfWellFormed(members: seq<(string, Value)>, first: seq<(string, Value)>,
                           rest: seq<Value>, series: seq<Value>)
    requires Lookup(members, "results") == Some(Array([Object(first)] + rest))
    requires Lookup(first, "series") == Some(Array(series))
    ensures Series(InfluxDBResponse(Object(members))) == Success(Wrap(series))
  {
    SeriesOfFirstResult(members, Object(first), rest);
  }

  /** Only the first result is consulted: results after it do not matter. */
  lemma SeriesReadsOnlyFirstResult(a: seq<(string, Value)>, b: seq<(string, Value)>,
                                   first: Value, restA: seq<Value>, restB: seq<Value>)
    requires Lookup(a, "results") == Some(Array([first] + restA))
    requires Lookup(b, "results") == Some(Array([first] + restB))
    ensures Series(InfluxDBResponse(Object(a))) == Series(InfluxDBResponse(Object(b)))
  {
    SeriesOfFirstResult(a, first, restA);
    SeriesOfFirstResult(b, first, restB);
  }

  /** A repeated `results` key is read as Python's dictionary holds it: the
      last binding decides, and the key is counted once. */
  lemma RepeatedKeyLastWins()
    ensures var doc := Object([("results", Array([])),
                               ("results", Array([Object([("series", Array([Null]))])]))]);
            && Len(doc) == Success(1)
            && Series(InfluxDBResponse(doc)) == Success([SerieResponse(Null)])
  {
    var first := Object([("series", Array([Null]))]);
    var members := [("results", Array([])), ("results", Array([first]))];
    assert Keys(members[..1]) == ["results"];
    assert members[1].0 == "results";
    assert Lookup(members, "results") == Some(Array([first]));
    assert [first] + [] == [first];
    SeriesOfWellFormed(members, [("series", Array([Null]))], [], [Null]);
    assert Wrap([Null]) == [SerieResponse(Null)];
  }

  /** `columns`: the series' `columns` entry as it is. */
  function Columns(serie: SerieResponse): (r: Result<Value, PyError>)
    ensures serie.raw.Object? && HasKey(serie.raw.members, "columns") ==>
              r == Success(Lookup(serie.raw.members, "columns").value)
    ensures serie.raw.Object? && !HasKey(serie.raw.members, "columns") ==>
              r == Failure(KeyError("columns"))
  {
    GetItem(serie.raw, "columns")
  }

  /** `values`: the series' `values` entry as it is; a series without one is
      an error, not an empty list. */
  function Values(serie: SerieResponse): (r: Result<Value, PyError>)
    ensures serie.raw.Object? && HasKey(serie.raw.members, "values") ==>
              r == Success(Lookup(serie.raw.members, "values").value)
    ensures serie.raw.Object? && !HasKey(serie.raw.members, "values") ==>
              r == Failure(KeyError("values"))
  {
    GetItem(serie.raw, "values")
  }

  /** The name used for a series that carries none. */
  const DefaultSerieName: string := "default"

  /** `name`: the series' `name` entry, or `"default"` when it has none. */
  function Name(serie: SerieResponse): (r: Result<Value, PyError>)
    ensures serie.raw.Object? && HasKey(serie.raw.members, "name") ==>
              r == Success(Lookup(serie.raw.members, "name").value)
    ensures serie.raw.Object? && !HasKey(serie.raw.members, "name") ==>
              r == Success(Str(DefaultSerieName))
    ensures !serie.raw.Object? ==> r == Failure(AttributeError)
  {
    Get(serie.raw, "name", Str(DefaultSerieName))
  }

  /** `error`: the response's `error` entry. */
  function Error(response: InfluxDBErrorResponse): (r: Result<Value, PyError>)
    ensures response.raw.Object? && HasKey(response.raw.members, "error") ==>
              r == Success(Lookup(response.raw.members, "error").value)
    ensures response.raw.Object? && !HasKey(response.raw.members, "error") ==>
              r == Failure(KeyError("error"))
  {
    GetItem(response.raw, "error")
  }
}

=== FILE: selectors.dfy ===
/** The selector functions that take no parameter besides their subject. */
module Selectors {
  import opened Functions

  function First(field: Subject := Star): (f: Function)
    ensures f.identifier == "FIRST" && f.field == field
  {
    MakeFunction("FIRST", field)
  }

  function Last(field: Subject := Star): (f: Function)
    ensures f.identifier == "LAST" && f.field == field
  {
    MakeFunction("LAST", field)
  }

  function Max(field: Subject := Star): (f: Function)
    ensures f.identifier == "MAX" && f.field == field
  {
    MakeFunction("MAX", field)
  }

  function Min(field: Subject := Star): (f: Function)
    ensures f.identifier == "MIN" && f.field == field
  {
    MakeFunction("MIN", field)
  }

  /** Renderings with the default subject and with a plain field name. */
  lemma SelectorRenderings(s: string)
    ensures Evaluate(First()) == "FIRST(*)"
    ensures Evaluate(First(Plain(s))) == "FIRST(" + s + ")"
    ensures Evaluate(Last(Plain(s))) == "LAST(" + s + ")"
    ensures Evaluate(Max(Plain(s))) == "MAX(" + s + ")"
    ensures Evaluate(Min(Plain(s))) == "MIN(" + s + ")"
  {
  }

  /** The four selectors render any one subject in four different ways. */
  lemma SelectorsDistinct(field: Subject)
    ensures var renderings := [Evaluate(First(field)), Evaluate(Last(field)),
                               Evaluate(Max(field)), Evaluate(Min(field))];
            forall i, j :: 0 <= i < j < 4 ==> renderings[i] != renderings[j]
  {
    var first, last, max, min := Evaluate(First(field)), Evaluate(Last(field)),
                                 Evaluate(Max(field)), Evaluate(Min(field));
    assert first[..6] == "FIRST(";
    assert last[..5] == "LAST(";
    assert max[..4] == "MAX(";
    assert min[..4] == "MIN(";
    assert first[0] == 'F' && last[0] == 'L' && max[0] == 'M' && min[0] == 'M';
    assert max[1] == 'A' && min[1] == 'I';
  }

  /** Selectors nest: a selector applied to another renders around its rendering. */
  lemma SelectorsNest()
    ensures Evaluate(Max(Nested(First(Plain("v"))))) == "MAX(FIRST(v))"
  {
  }
}

=== FILE: text.dfy ===
/** String helpers shared by the query-text builders: Python's `sep.join`,
    ASCII upper-casing, double-quoting, and a few search functions. */
module Text {

  /** Sum of the lengths of `parts`. */
  function TotalLength(parts: seq<string>): nat
  {
    if |parts| == 0 then 0 else |parts[0]| + TotalLength(parts[1..])
  }

  /** `sep.join(parts)`: the parts in order with `sep` between neighbours. */
  function Join(sep: string, parts: seq<string>): (r: string)
    ensures |parts| == 0 ==> r == ""
    ensures |parts| > 0 ==> parts[0] <= r
    decreases |parts|
  {
    if |parts| == 0 then ""
    else if |parts| == 1 then parts[0]
    else parts[0] + sep + Join(sep, parts[1..])
  }

  /** A joined text is as long as its parts plus one separator between each two. */
  lemma {:induction false} JoinLength(sep: string, parts: seq<string>)
    requires |parts| > 0
    ensures |Join(sep, parts)| == TotalLength(parts) + (|parts| - 1) * |sep|
    decreases |parts|
  {
    if |parts| > 1 {
      JoinLength(sep, parts[1..]);
      assert (|parts| - 1) * |sep| == |sep| + (|parts| - 2) * |sep|;
    }
  }

  /** With a non-empty separator, a joined text is empty exactly when there is
      nothing to join or a single empty part. */
  lemma JoinEmpty(sep: string, parts: seq<string>)
    requires sep != ""
    ensures Join(sep, parts) == "" <==> |parts| == 0 || (|parts| == 1 && parts[0] == "")
  {
    if |parts| >= 2 {
      JoinLength(sep, parts);
      var n := |parts| - 1;
      assert n * |sep| >= |sep| by {
        assert n >= 1;
        assert n * |sep| == |sep| + (n - 1) * |sep|;
      }
    }
  }

  /** Joining three parts. */
  lemma JoinOfThree(sep: string, a: string, b: string, c: string)
    ensures Join(sep, [a, b, c]) == a + sep + (b + sep + c)
  {
    assert [a, b, c][1..] == [b, c];
    assert [b, c][1..] == [c];
    assert Join(sep, [c]) == c;
    assert Join(sep, [b, c]) == b + sep + c;
  }

  /** Joining one more part appends the separator and that part. */
  lemma {:induction false} JoinAppend(sep: string, parts: seq<string>, last: string)
    requires |parts| > 0
    ensures Join(sep, parts + [last]) == Join(sep, parts) + sep + last
    decreases |parts|
  {
    if |parts| == 1 {
      assert (parts + [last])[1..] == [last];
    } else {
      assert (parts + [last])[1..] == parts[1..] + [last];
      JoinAppend(sep, parts[1..], last);
    }
  }

  /** Concatenation does not depend on the grouping. */
  lemma Regroup(a: string, b: string, c: string)
    ensures a + b + c == a + (b + c)
  {
  }

  /** Putting a prefix before a concatenation does not depend on the grouping. */
  lemma PrefixRegroups(prefix: string, a: string, b: string, c: string)
    ensures prefix + (a + b + c) == prefix + a + b + c
  {
  }

  /** Wraps `s` in double quotes, as `'"{}"'.format(s)` does. */
  function Quote(s: string): (r: string)
    ensures |r| == |s| + 2 && r[0] == '"' && r[|r| - 1] == '"'
    ensures r[1..|r| - 1] == s
  {
    "\"" + s + "\""
  }

  predicate IsLower(c: char)
  {
    'a' <= c <= 'z'
  }

  /** ASCII upper-casing of one character. */
  function UpperChar(c: char): (r: char)
    ensures !IsLower(r)
    ensures IsLower(c) ==> r as int == c as int - 32
    ensures !IsLower(c) ==> r == c
  {
    if IsLower(c) then (c as int - 32) as char else c
  }

  /** Python's `str.upper`, restricted to ASCII letters: every lower-case
      letter is replaced by its capital, every other character is kept. */
  function Upper(s: string): (r: string)
    ensures |r| == |s|
    ensures forall i :: 0 <= i < |r| ==> !IsLower(r[i])
    ensures forall i :: 0 <= i < |s| && !IsLower(s[i]) ==> r[i] == s[i]
    ensures forall i :: 0 <= i < |s| && IsLower(s[i]) ==> r[i] as int == s[i] as int - 32
  {
    seq(|s|, i requires 0 <= i < |s| => UpperChar(s[i]))
  }

  /** Upper-casing an upper-cased text changes nothing. */
  lemma UpperIdempotent(s: string)
    ensures Upper(Upper(s)) == Upper(s)
  {
    var u := Upper(s);
    assert forall i :: 0 <= i < |u| ==> Upper(u)[i] == u[i];
  }

  /** Number of occurrences of `c` in `s`. */
  function CountChar(c: char, s: string): (n: nat)
    ensures n <= |s|
    ensures n == 0 <==> c !in s
  {
    if |s| == 0 then 0
    else (if s[0] == c then 1 else 0) + CountChar(c, s[1..])
  }

  lemma {:induction false} CountCharConcat(c: char, a: string, b: string)
    ensures CountChar(c, a + b) == CountChar(c, a) + CountChar(c, b)
    decreases |a|
  {
    if |a| > 0 {
      assert (a + b)[1..] == a[1..] + b;
      CountCharConcat(c, a[1..], b);
    } else {
      assert a + b == b;
    }
  }

  /** Position of the first `c` in `s`, or `|s|` when there is none. */
  function IndexOf(s: string, c: char): (k: nat)
    ensures k <= |s|
    ensures k < |s| ==> s[k] == c
    ensures c !in s[..k]
    ensures k == |s| <==> c !in s
  {
    if |s| == 0 then 0
    else if s[0] == c then 0
    else
      var k' := IndexOf(s[1..], c);
      assert s[..1 + k'] == [s[0]] + s[1..][..k'];
      1 + k'
  }

  /** The first `c` in `a + [c] + b` is the one after `a` when `a` holds none. */
  lemma IndexOfAfter(a: string, c: char, b: string)
    requires c !in a
    ensures IndexOf(a + [c] + b, c) == |a|
  {
    var s := a + [c] + b;
    var k := IndexOf(s, c);
    assert s[|a|] == c;
    assert forall j :: 0 <= j < |a| ==> s[j] == a[j];
  }

  /** The three pieces of a concatenation can be sliced back out. */
  lemma ConcatSlices(a: string, b: string, c: string)
    ensures var s := a + b + c;
            && s[..|a|] == a && s[|a|..|a| + |b|] == b && s[|a| + |b|..] == c
  {
  }

  /** `p in s` for Python strings: `p` occurs as a contiguous piece of `s`. */
  predicate IsSubstring(p: string, s: string): (r: bool)
    ensures p <= s ==> r
    ensures r ==> |p| <= |s|
  {
    assert OccursAt(p, s, 0) <==> p <= s by {
      assert s[0..] == s;
    }
    exists i :: 0 <= i <= |s| && OccursAt(p, s, i)
  }

  /** `p` starts at position `i` of `s`. */
  predicate OccursAt(p: string, s: string, i: nat)
    requires i <= |s|
  {
    p <= s[i..]
  }

  lemma SubstringOfConcat(a: string, p: string, b: string)
    ensures IsSubstring(p, a + p + b)
  {
    assert (a + p + b)[|a|..] == p + b;
    assert OccursAt(p, a + p + b, |a|);
  }

  /** A text without the letter `X` does not contain `EXACT`. */
  lemma NoExactWithoutX(s: string)
    requires 'X' !in s
    ensures !IsSubstring("EXACT", s)
  {
    forall i | 0 <= i <= |s|
      ensures !OccursAt("EXACT", s, i)
    {
      if i + 1 < |s| {
        assert s[i..][1] == s[i + 1];
        assert s[i + 1] != 'X';
      }
    }
  }
}

=== FILE: wrappers.dfy ===
/** Failure-compatible Option and Result types used throughout the model.
    `None` stands for Python's `None`; `Failure` stands for a raised exception. */
module Wrappers {

  datatype Option<+T> = None | Some(value: T) {

    /** Returns the value in Some, or `default` when None */
    function GetOr(default: T): T {
      match this
      case Some(v) => v
      case None => default
    }
  }

  datatype Result<+R, +E> = Success(value: R) | Failure(error: E) {

    predicate IsFailure() {
      Failure?
    }

    function PropagateFailure<U>(): Result<U, E>
      requires Failure?
    {
      Failure(error)
    }

    function Extract(): R
      requires Success?
    {
      value
    }
  }
}
